=== FILE: README.md ===
# archivelfs in Dafny

archivelfs materialises Git LFS files in a working tree without git-lfs. It
walks the repository, picks out the small files that are Git LFS pointer
stubs, and downloads each object from the LFS server named in
`.lfsconfig`, writing it over its stub. This project models the three pure
decisions inside that program and proves properties about them:

- **which text is a pointer** (`LfsPointer::parse`). The model covers Rust's
  `str::strip_prefix` and `usize::from_str` exactly, and `str::lines` for
  every text except one whose unterminated last line ends in a lone `\r` (see
  "Text.Lines" under "Left out"): modules `Text`, `Usize` and `Pointer`.
- **where an object is fetched from**. The configured URL is made to end in
  `/`, then joined with `""`, with `object/` and with the object id. The joins
  are reference resolution from section 5.2 of RFC 3986, modelled at the
  level of URL components: modules `Uri` and `Endpoint`.
- **which files are scanned**. This is the walkdir pipeline: the root is
  excluded, directories holding a `CACHEDIR.TAG` are pruned, errors are
  dropped, files must be under 200 bytes, and the contents must parse. It
  runs over an immutable directory tree: module `TreeScan`.

`Wrappers` holds `Option` and `Result`. Everything is a pure function. The
lemmas state round trips, the accept/reject boundary of the parser,
invariants of path resolution, and a membership characterisation of the
scan against an independent "visible" predicate.

Nothing checks the object id after its prefix: `strip_prefix("oid sha256:")`
(src/main.rs:29) returns an empty id for a line that is exactly
`oid sha256:`, and `Pointer.Parse` accepts that line with the empty id (see
`Pointer.ParseAcceptsEmptyOid`). Nor is the id checked to be hexadecimal, so
`..` is accepted too, and fetches the configured base itself (see
`Endpoint.ObjectUrlDotDot`). Worse, an id with a scheme (`http:…`) or a
leading `//` is accepted (see `Endpoint.ForeignIdsAccepted`). `join`
(src/main.rs:101) then resolves it against another scheme or host, so the
object is fetched from a server other than the configured one and written
over the stub. The model of `join` covers only relative references, so it
states no result for these ids.

## Model

| member | source | states |
|---|---|---|
| Text.StripPrefix | src/main.rs:29 | `strip_prefix` succeeds exactly when the text starts with the prefix, and the text is then the prefix followed by the result |
| Text.LinesHaveNoBreak | src/main.rs:26 | no line produced by `lines()` contains a `\n` |
| Text.LinesCount | src/main.rs:26-27 | the number of lines is the number of `\n` characters, plus one when the text is non-empty and does not end in `\n` |
| Text.LinesCons | src/main.rs:26 | text made of a line, a terminator (`\n` or `\r\n`) and more text splits into that line followed by the lines of the rest |
| Text.LinesJoinLines | src/main.rs:26 | lines joined with a terminator, optionally followed by an unterminated last line, split back into exactly those lines; an empty last line is not produced |
| Text.LinesForTrailing | src/main.rs:26-27 | a second terminator at the end of terminated lines adds exactly one empty line |
| Usize.FormatUsize | src/main.rs:32 | the numeral written for a value is canonical (digits only, no superfluous leading zero) and denotes that value |
| Usize.ParseUsize | src/main.rs:32 | an accepted size is at most 2^64-1, begins with `+` or a digit, is all digits after the first character, and its value is the decimal value of the digits after an optional `+` |
| Usize.LeadingZerosValue | src/main.rs:32 | leading zeros do not change the value of a numeral |
| Usize.ParseLeadingZeros | src/main.rs:32 | a numeral with any number of leading zeros, with or without `+`, is accepted with the value it has without them (`0012` is 12, `+007` is 7) |
| Usize.ParseFormat | src/main.rs:32 | every value up to `usize::MAX` is read back from its decimal numeral |
| Usize.ParseOverflow | src/main.rs:32 | the decimal numeral of any value above `usize::MAX` is rejected |
| Usize.FormatDecimalValue | src/main.rs:32 | two canonical numerals never denote the same value: formatting the value of a canonical numeral gives that numeral back |
| Usize.ParsedCanonicalIsFormatted | src/main.rs:32 | an accepted numeral without a sign or leading zeros is exactly the decimal numeral of its value |
| Usize.ParsePlus | src/main.rs:32 | a leading `+` is accepted and does not change the value |
| Usize.ParseRejects | src/main.rs:32 | a numeral with a leading `-`, or with a space before or after its digits, is rejected |
| Usize.ParseRejectsEmpty | src/main.rs:32 | the empty string and a lone `+` are rejected |
| Pointer.Parse | src/main.rs:24-40 | an unreadable file fails; a success keeps the path, has a size of at most `usize::MAX` and an id without `\n`, and comes from exactly three lines: the version line, `oid sha256:` followed by the id, and `size ` followed by digits that parse to the size |
| Pointer.ParseSucceedsIff | src/main.rs:26-34 | parsing succeeds if and only if there are three lines, the first is the version line, the second starts with `oid sha256:`, and the third is `size ` followed by a valid `usize` |
| Pointer.ParseRejectsLineCount | src/main.rs:27 | any text without exactly three lines is rejected with its line count, whatever the lines say |
| Pointer.LinesOfFormat | src/main.rs:26 | the pointer text as git-lfs writes it, with `\n` or `\r\n` endings and with or without a final terminator, splits into the three formatted lines |
| Pointer.ParseFormat | src/main.rs:24-40 | round trip: for any id without `\n` that does not end in `\r` (`lines()` would strip that `\r`), and any size up to `usize::MAX`, the pointer text parses back to that id, size and path, whatever the line endings and whether or not the last line is terminated |
| Pointer.ParseAcceptsEmptyOid | src/main.rs:29-31 | `oid sha256:` with nothing after it is accepted, with the empty id |
| Pointer.ParseRejectsTrailingBlankLine | src/main.rs:26-27 | a pointer followed by a blank line (text ending in two terminators) is rejected as having four lines |
| Pointer.ParseRejectsSize | src/main.rs:32-34 | any size field that `usize::from_str` rejects makes the file fail with an invalid-size error naming the line |
| Pointer.ParseRejectsMalformedSizes | src/main.rs:32-34 | a size with an extra space before it, a minus sign, or a trailing space is rejected |
| Pointer.ParseRejectsOverflowingSize | src/main.rs:32-34 | the size `usize::MAX + 1` is rejected |
| Uri.SplitReference | src/main.rs:76 | the reference is split into path, query and fragment that recompose to it, with no `?` or `#` in the path and no `#` in the query |
| Uri.Merge | src/main.rs:76 | the merged path is absolute and ends in the reference path, preceded by the base path up to and including its last `/` (section 5.2.3 of RFC 3986) |
| Uri.RemoveDotSegments | src/main.rs:76 | removing dot segments from an absolute path gives an absolute path with no `.` or `..` segment (section 5.2.4 of RFC 3986) |
| Uri.RemoveDotSegmentsFromResult | src/main.rs:76 | the loop of section 5.2.4 of RFC 3986, started on an absolute input with an absolute output free of dot segments, ends with an absolute output free of dot segments |
| Uri.RemoveDotSegmentsFromDotFree | src/main.rs:76 | a path without dot segments passes through dot-segment removal unchanged |
| Uri.RemoveDotSegmentsIdempotent | src/main.rs:76 | removing dot segments a second time changes nothing |
| Uri.RemoveDotSegmentsFromAppend | src/main.rs:76 | dot-segment removal works segment by segment: a leading part without dot segments moves to the output whole before the rest is processed |
| Uri.DotDotCancels | src/main.rs:101 | below a directory without dot segments, a segment followed by `/..` cancels out |
| Uri.Resolve | src/main.rs:76 | resolution keeps the base's scheme and authority and takes the reference's fragment; an empty reference path keeps the base path and, unless the reference has one, the base query; any other reference gives its own query and an absolute path without dot segments (section 5.2.2 of RFC 3986) |
| Uri.ResolvePlainSegment | src/main.rs:101 | against a directory path without dot segments, a plain segment is appended to the path and the base's query and fragment are dropped |
| Uri.ResolveParent | src/main.rs:101 | against a base path `p` + `s/`, the reference `..` resolves to `p` and drops the query and fragment |
| Endpoint.NormalizeBase | src/main.rs:71-74 | the result ends in `/`, starts with the configured URL and is at most one character longer, and is the URL itself when that already ends in `/` |
| Endpoint.NormalizeBaseIdempotent | src/main.rs:71-74 | normalising twice is normalising once |
| Endpoint.NormalizeBaseAppends | src/main.rs:71-74 | a URL not ending in `/` gets exactly one `/` appended |
| Endpoint.ExampleNormalize | src/main.rs:71-74 | `https://example` and `https://example/` normalise to the same base, which is the text of the URL with scheme `https`, host `example` and path `/` |
| Endpoint.ObjectEndpoint | src/main.rs:76 | the object endpoint keeps scheme and authority, has no query and no fragment, and its path is absolute without dot segments |
| Endpoint.ResolveEmpty | src/main.rs:76 | joining `""` keeps path and query and drops only the fragment |
| Endpoint.ObjectEndpointPath | src/main.rs:76 | for a base path ending in `/` without dot segments, the endpoint path is the base path followed by `object/` |
| Endpoint.ObjectUrl | src/main.rs:101 | for an id that is a relative reference (no `:`, not starting with `//`), joining it keeps the endpoint's scheme and authority |
| Endpoint.ForeignIdsAccepted | src/main.rs:101 | the parser accepts ids starting with `//` or with a scheme, which are not relative references, so `join` would not keep the endpoint's server for them |
| Endpoint.ObjectUrlPath | src/main.rs:101 | an id that is a plain segment is fetched from the base path followed by `object/` and the id, with no query or fragment |
| Endpoint.ObjectUrlText | src/main.rs:101 | as text, that object URL is the base URL's text followed by `object/` and the id |
| Endpoint.ObjectUrlEmptyOid | src/main.rs:101 | the empty id that the parser accepts fetches the object endpoint itself |
| Endpoint.ObjectUrlDotDot | src/main.rs:101 | the id `..`, which the parser also accepts, fetches the configured base itself, outside `object/` |
| TreeScan.HasMarker | src/main.rs:82 | looking `CACHEDIR.TAG` up entry by entry in a directory listing succeeds exactly when some entry of that name exists (is not broken) |
| TreeScan.Tagged | src/main.rs:82 | a node is pruned exactly when it is a directory in which an entry named `CACHEDIR.TAG` exists |
| TreeScan.Walk | src/main.rs:78-82 | every entry the walk yields lies strictly below its starting directory, so the root itself is never yielded |
| TreeScan.Visit | src/main.rs:78-82 | every entry yielded for one child lies strictly below the directory holding it |
| TreeScan.WalkVisible | src/main.rs:78-82 | the walk yields an entry if and only if it is visible: every directory above it is untagged, and it is neither broken nor a tagged directory |
| TreeScan.VisitVisible | src/main.rs:82 | the same characterisation for the walk of a single child |
| TreeScan.WalkAppend | src/main.rs:78-82 | the walk of a concatenation of children is the concatenation of their walks |
| TreeScan.Entries | src/main.rs:83 | `filter_map(ok)` keeps exactly the entries that were not errors |
| TreeScan.SmallEntries | src/main.rs:84 | the size filter keeps exactly the entries whose metadata can be read and reports fewer than 200 bytes |
| TreeScan.Pointers | src/main.rs:85 | a pointer is kept exactly when some entry's text parses to it |
| TreeScan.FilterAppend | src/main.rs:83-85 | the filters after the walk act entry by entry |
| TreeScan.FilterOne | src/main.rs:83-85 | one entry passes the filters exactly when it is small and its text parses, and it then yields the parsed pointer |
| TreeScan.Scan | src/main.rs:78-86 | every pointer found has a path at least one component deep and a size of at most `usize::MAX` |
| TreeScan.ScanFinds | src/main.rs:78-86 | a pointer is found if and only if it is parsed from the text of a file visible below the root whose size is under 200 bytes |
| TreeScan.ScanSkipsTagged | src/main.rs:82 | a directory directly under the root holding a `CACHEDIR.TAG` contributes nothing, and everything outside it is found as before, in the same order (for every depth, see `TreeScan.ScanPrunesTagged`) |
| TreeScan.PruneTagged | src/main.rs:82 | removing tagged directories, at every depth, never creates a `CACHEDIR.TAG` entry that was not there |
| TreeScan.PruneChild | src/main.rs:82 | a child is dropped exactly when it is a tagged directory; otherwise it is kept once, under its own name and of the same kind (a file unchanged) |
| TreeScan.WalkPruned | src/main.rs:78-85 | walking children with every tagged directory removed beforehand yields the same pointers, in the same order |
| TreeScan.VisitPruned | src/main.rs:78-85 | the same for the walk of one child |
| TreeScan.ScanPrunesTagged | src/main.rs:78-86 | pruning happens at every depth: removing every directory that holds a `CACHEDIR.TAG`, wherever it lies below the root, changes neither which pointers are found nor their order |
| TreeScan.ScanIgnoresRootTag | src/main.rs:79-82 | a root holding a `CACHEDIR.TAG` is tagged, yet it is still scanned: adding the marker changes nothing |
| TreeScan.ScanSizeBoundary | src/main.rs:84 | a valid pointer file of 199 bytes is found; the same text in a 200-byte file is not |

## Left out

- The download is not modelled: the HTTP requests, the file overwrite, and the `buffer_unordered` / `try_collect` fan-out (src/main.rs:92-117). It is network I/O and concurrency. Note that `try_collect` stops at the first failed task and drops the ones still in flight.
- Reading and decoding `.lfsconfig` as TOML (src/main.rs:43-54, 66-69) is left out. It is file I/O and a foreign library, so the configured URL is simply an input to `Endpoint.NormalizeBase`.
- `reqwest::Url::parse` (src/main.rs:75) is a foreign URL parser. The model starts from a parsed `Url` whose path is absolute. The properties that need it also assume the path ends in `/` and has no dot segments, as the parser leaves a URL whose text ends in `/`.
- Endpoint.NormalizeBase: appends `/` to the text even when the URL has a query or fragment, as the code does. The lemmas about the endpoint assume a base without either.
- Uri.Resolve: covers only references built from unreserved characters, sub-delimiters other than `'`, `@`, `/`, `?` and `#`, not starting with `//`. For these, RFC 3986 and the WHATWG URL parser used by `reqwest` agree. Percent-encoding, `:`, `\`, and scheme- or authority-relative references are not modelled.
- Endpoint.ObjectUrl: its exact result is stated only for ids that are plain segments, for the empty id and for `..`. Hex digits, which real ids are, are plain segments. The parser also accepts ids with a scheme or a leading `//`. For those, `join` fetches from another scheme or host. That resolution is not modelled: `ObjectUrl` requires a relative reference.
- Text.Lines: strips a `\r` that ends an unterminated last line, following the rule "split on `\n`, then strip one trailing `\r` from each line". Recent Rust releases keep such a lone `\r`. With `\r\n` line endings the two agree.
- The file system is modelled as an immutable tree of named entries. Real directory reading, symlinks (walkdir does not follow them, while `read_to_string` does), permissions and the order of entries within a directory are not modelled. The results are stated by membership, so the order does not matter.
- TreeScan.Node: a file's `size` (its metadata length in bytes) and its `text` are independent inputs. The model does not tie the byte length to the UTF-8 encoding of the text.
- TreeScan.Walk: a directory whose listing fails part-way is not modelled. Only whole entries can be broken (reported as errors and dropped).
- The pointer count and total size in megabytes logged after the scan (src/main.rs:87-91) are left out. They are floating point and logging only.
- The command-line flags, the default root (the current directory), logger setup and the exit code (src/main.rs:8-15, 56-64, 122-127) are left out as program glue.

=== FILE: endpoint.dfy ===
/**
 * Where objects are fetched from: the configured LFS URL is made to end in
 * `/`, joined with `""` and then `object/`, and each object's URL is that
 * endpoint joined with the object id (src/main.rs lines 71-76 and 101).
 */
module Endpoint {
  import opened Wrappers
  import opened Text
  import opened Uri
  import Pointer

  /** The sub-path under which the server keeps objects. */
  const OBJECT_DIR: string := "object/"

  /** Appends `/` to the configured URL unless it already ends in one; `//` is left alone. */
  function NormalizeBase(url: string): (r: string)
    ensures EndsWith(r, '/')
    ensures StartsWith(r, url) && |r| <= |url| + 1
    ensures EndsWith(url, '/') ==> r == url
  {
    if EndsWith(url, '/') then url else url + "/"
  }

  /** Normalising twice is normalising once. */
  lemma NormalizeBaseIdempotent(url: string)
    ensures NormalizeBase(NormalizeBase(url)) == NormalizeBase(url)
  {
  }

  /** Without a trailing `/`, exactly one is added. */
  lemma NormalizeBaseAppends(url: string)
    requires !EndsWith(url, '/')
    ensures NormalizeBase(url) == url + "/"
  {
    var r := NormalizeBase(url);
    assert r[..|url|] == url;
    assert r[|r| - 1] == '/';
    assert r == r[..|url|] + [r[|r| - 1]];
  }

  /** `url.join("")?.join("object/")`: the object endpoint under the configured base. */
  function ObjectEndpoint(base: Url): (e: Url)
    requires IsAbsolutePath(base.path)
    ensures e.scheme == base.scheme && e.authority == base.authority
    ensures e.query.None? && e.fragment.None?
    ensures IsAbsolutePath(e.path) && DotFree(e.path)
  {
    ObjectDirIsReference();
    Resolve(Resolve(base, ""), OBJECT_DIR)
  }

  /** `url.join(&f.sha256)`: the URL one object is fetched from. */
  function ObjectUrl(endpoint: Url, sha256: string): (u: Url)
    requires IsAbsolutePath(endpoint.path) && IsRelativeRef(sha256)
    ensures u.scheme == endpoint.scheme && u.authority == endpoint.authority
  {
    Resolve(endpoint, sha256)
  }

  /** `object/` is the plain segment `object` and a `/`, so it is a reference with nothing but a path. */
  lemma ObjectDirIsReference()
    ensures IsPlainSegment("object") && OBJECT_DIR == "object" + "/"
    ensures IsRelativeRef(OBJECT_DIR)
    ensures SplitReference(OBJECT_DIR) == Reference(OBJECT_DIR, None, None)
  {
    assert IsPlainSegment("object");
    PlainDirectory("object");
    assert "object" + "/" == OBJECT_DIR;
  }

  /** Joining the empty reference keeps the path and query and drops the fragment. */
  lemma ResolveEmpty(base: Url)
    requires IsAbsolutePath(base.path)
    ensures Resolve(base, "") == base.(fragment := None)
  {
    assert SplitReference("") == Reference("", None, None);
  }

  /** Appending `object/` to a directory path keeps it free of dot segments. */
  lemma AppendObjectDir(path: string)
    requires IsAbsolutePath(path) && DotFree(path) && EndsWith(path, '/')
    ensures DotFree(path + OBJECT_DIR)
  {
    AppendPlainSegment(path, "object");
    DotFreeAppend(path + "object", "/");
    assert path + "object" + "/" == path + OBJECT_DIR;
  }

  /**
   * For a base whose path ends in `/` and is free of dot segments, as the URL
   * parser leaves it, the endpoint path is that path followed by `object/`,
   * with no query and no fragment.
   */
  lemma ObjectEndpointPath(base: Url)
    requires IsAbsolutePath(base.path) && DotFree(base.path) && EndsWith(base.path, '/')
    ensures ObjectEndpoint(base) == Url(base.scheme, base.authority, base.path + OBJECT_DIR, None, None)
  {
    ResolveEmpty(base);
    ObjectDirIsReference();
    var b := base.(fragment := None);
    assert Merge(b.path, OBJECT_DIR) == base.path + OBJECT_DIR;
    AppendObjectDir(base.path);
    RemoveDotSegmentsFromDotFree(base.path + OBJECT_DIR, []);
  }

  /** An object id that is a plain segment is the last segment of its URL, under `object/`. */
  lemma ObjectUrlPath(base: Url, sha256: string)
    requires IsAbsolutePath(base.path) && DotFree(base.path) && EndsWith(base.path, '/')
    requires IsPlainSegment(sha256) && sha256 != []
    ensures IsRelativeRef(sha256)
    ensures ObjectUrl(ObjectEndpoint(base), sha256)
         == Url(base.scheme, base.authority, base.path + OBJECT_DIR + sha256, None, None)
  {
    ObjectEndpointPath(base);
    AppendObjectDir(base.path);
    var e := ObjectEndpoint(base);
    assert EndsWith(e.path, '/');
    ResolvePlainSegment(e, sha256);
  }

  /** An empty object id, which the pointer parser accepts, fetches the endpoint itself. */
  lemma ObjectUrlEmptyOid(base: Url)
    requires IsAbsolutePath(base.path)
    ensures IsRelativeRef("")
    ensures ObjectUrl(ObjectEndpoint(base), "") == ObjectEndpoint(base)
  {
    ResolveEmpty(ObjectEndpoint(base));
  }

  /**
   * The object id is not checked to be a hash: the id `..`, which the pointer
   * parser accepts, fetches the configured base itself rather than anything
   * under `object/`.
   */
  lemma ObjectUrlDotDot(base: Url, sha256: string)
    requires IsAbsolutePath(base.path) && DotFree(base.path) && EndsWith(base.path, '/')
    requires |sha256| == 2 && sha256[0] == '.' && sha256[1] == '.'
    ensures IsRelativeRef(sha256)
    ensures ObjectUrl(ObjectEndpoint(base), sha256) == Url(base.scheme, base.authority, base.path, None, None)
  {
    var e := ObjectEndpoint(base);
    assert e.path == base.path + "object" + "/" by {
      ObjectEndpointPath(base);
      ObjectDirIsReference();
    }
    ObjectDirIsReference();
    ResolveParent(e, base.path, "object", sha256);
  }

  /** The URL as text: scheme, `://`, authority, path, then any query and fragment. */
  function Serialize(u: Url): string {
    u.scheme + "://" + u.authority + u.path
    + (if u.query.Some? then "?" + u.query.value else "")
    + (if u.fragment.Some? then "#" + u.fragment.value else "")
  }

  /** `https://example` and `https://example/` normalise to the same base, the text of `https://example/`. */
  lemma ExampleNormalize()
    ensures NormalizeBase("https://example") == NormalizeBase("https://example/")
    ensures Serialize(Url("https", "example", "/", None, None)) == NormalizeBase("https://example")
  {
    NormalizeBaseAppends("https://example");
  }

  /**
   * In text: for a configured base without query or fragment whose path ends
   * in `/`, an object is fetched from the base's own text followed by
   * `object/` and the object id.
   */
  lemma ObjectUrlText(base: Url, sha256: string)
    requires IsAbsolutePath(base.path) && DotFree(base.path) && EndsWith(base.path, '/')
    requires base.query.None? && base.fragment.None?
    requires IsPlainSegment(sha256) && sha256 != []
    ensures IsRelativeRef(sha256)
    ensures Serialize(ObjectUrl(ObjectEndpoint(base), sha256)) == Serialize(base) + OBJECT_DIR + sha256
  {
    ObjectUrlPath(base, sha256);
    SerializeAppend(base, OBJECT_DIR, sha256);
  }

  /** Extending the path of a URL without query or fragment extends its text. */
  lemma SerializeAppend(u: Url, dir: string, name: string)
    requires u.query.None? && u.fragment.None?
    ensures Serialize(Url(u.scheme, u.authority, u.path + dir + name, None, None)) == Serialize(u) + dir + name
  {
  }

  /**
   * The parser does not check the id, and it accepts ids that are not
   * relative references: one starting with `//` (a network-path reference)
   * and one with a scheme. For these, `join` leaves the configured server,
   * which is why `ObjectUrl` does not take them.
   */
  lemma ForeignIdsAccepted(filename: Pointer.Path, rest: string, t: string)
    requires IsLine(rest) && IsTerminator(t)
    ensures var id := "//" + rest;
      && Pointer.Parse(filename, Some(Pointer.Format(id, 0, t, true))) == Success(Pointer.LfsPointer(id, 0, filename))
      && !IsRelativeRef(id)
    ensures var id := "http:" + rest;
      && Pointer.Parse(filename, Some(Pointer.Format(id, 0, t, true))) == Success(Pointer.LfsPointer(id, 0, filename))
      && !IsRelativeRef(id)
  {
    AppendIsLine("//", rest);
    Pointer.ParseFormat(filename, "//" + rest, 0, t, true);
    assert StartsWith("//" + rest, "//");
    AppendIsLine("http:", rest);
    Pointer.ParseFormat(filename, "http:" + rest, 0, t, true);
    assert !IsPlainChar(("http:" + rest)[4]);
  }
}

=== FILE: pointer.dfy ===
/**
 * Git LFS pointer stubs: the three-line text file that stands in for a large
 * object, and `LfsPointer::parse`, which decodes it.
 */
module Pointer {
  import opened Wrappers
  import opened Text
  import opened Usize

  /** A file's path as its components below the scan root. */
  type Path = seq<string>

  /** The first line of every pointer file. */
  const VERSION_LINE: string := "version https://git-lfs.github.com/spec/v1"
  /** What the second line starts with; the rest of it is the object id. */
  const OID_PREFIX: string := "oid sha256:"
  /** What the third line starts with; the rest of it is the object size. */
  const SIZE_PREFIX: string := "size "

  /** A decoded pointer: the object id, its declared size and the stub's own path. */
  datatype LfsPointer = LfsPointer(sha256: string, size: nat, filename: Path)

  /** Why a file is not a pointer. */
  datatype ParseError =
    | Unreadable                  // read_to_string failed: unreadable, a directory, or not UTF-8
    | WrongLineCount(count: nat)
    | WrongVersion(line: string)
    | InvalidOid(line: string)
    | InvalidSize(line: string)

  /** The three conditions a line list must meet, besides its length, to be a pointer. */
  predicate PointerLines(lines: seq<string>)
    requires |lines| == 3
  {
    && lines[0] == VERSION_LINE
    && StartsWith(lines[1], OID_PREFIX)
    && StartsWith(lines[2], SIZE_PREFIX)
    && ParseUsize(lines[2][|SIZE_PREFIX|..]).Some?
  }

  /**
   * `LfsPointer::parse`, given what reading the file returned. The object id
   * is whatever follows `oid sha256:`, the empty string included.
   */
  function Parse(filename: Path, contents: Option<string>): (r: Result<LfsPointer, ParseError>)
    ensures contents.None? ==> r == Failure(Unreadable)
    ensures r.Success? ==> r.value.filename == filename
    ensures r.Success? ==> r.value.size <= USIZE_MAX
    ensures r.Success? ==> '\n' !in r.value.sha256
    ensures r.Success? ==> |Lines(contents.value)| == 3
    ensures r.Success? ==> Lines(contents.value)[0] == VERSION_LINE
    ensures r.Success? ==> Lines(contents.value)[1] == OID_PREFIX + r.value.sha256
    ensures r.Success? ==>
      exists digits :: Lines(contents.value)[2] == SIZE_PREFIX + digits
                    && ParseUsize(digits) == Some(r.value.size)
  {
    match contents
    case None => Failure(Unreadable)
    case Some(text) =>
      var lines := Lines(text);
      LinesHaveNoBreak(text);
      if |lines| != 3 then Failure(WrongLineCount(|lines|))
      else if lines[0] != VERSION_LINE then Failure(WrongVersion(lines[0]))
      else
        match StripPrefix(lines[1], OID_PREFIX)
        case None => Failure(InvalidOid(lines[1]))
        case Some(sha256) =>
          match StripPrefix(lines[2], SIZE_PREFIX)
          case None => Failure(InvalidSize(lines[2]))
          case Some(digits) =>
            match ParseUsize(digits)
            case None => Failure(InvalidSize(lines[2]))
            case Some(size) => Success(LfsPointer(sha256, size, filename))
  }

  /** Parsing succeeds exactly when the text has three lines that meet the three conditions. */
  lemma ParseSucceedsIff(filename: Path, text: string)
    ensures Parse(filename, Some(text)).Success? <==>
      |Lines(text)| == 3 && PointerLines(Lines(text))
  {
    var lines := Lines(text);
    if |lines| == 3 && StartsWith(lines[2], SIZE_PREFIX) {
      assert lines[2] == SIZE_PREFIX + lines[2][|SIZE_PREFIX|..];
    }
  }

  /** A text without exactly three lines is never a pointer, whatever the lines say. */
  lemma ParseRejectsLineCount(filename: Path, text: string)
    requires |Lines(text)| != 3
    ensures Parse(filename, Some(text)) == Failure(WrongLineCount(|Lines(text)|))
  {
  }

  /** The lines of a pointer for `sha256` and `size`, as git-lfs writes them. */
  function FormatLines(sha256: string, size: nat): seq<string> {
    [VERSION_LINE, OID_PREFIX + sha256, SIZE_PREFIX + FormatUsize(size)]
  }

  /**
   * The pointer text for `sha256` and `size` with line terminator `t`, with or
   * without a terminator after the size line.
   */
  function Format(sha256: string, size: nat, t: string, terminated: bool): string {
    var ls := FormatLines(sha256, size);
    if terminated then JoinLines(ls, t) else JoinLines(ls[..2], t) + ls[2]
  }

  lemma PrefixesAreLines()
    ensures IsLine(VERSION_LINE) && IsLine(OID_PREFIX) && IsLine(SIZE_PREFIX)
  {
  }

  lemma FormatLinesAreLines(sha256: string, size: nat)
    requires IsLine(sha256)
    ensures forall k :: 0 <= k < 3 ==> IsLine(FormatLines(sha256, size)[k])
  {
    PrefixesAreLines();
    AppendIsLine(OID_PREFIX, sha256);
    DigitsAreLine(FormatUsize(size));
    AppendIsLine(SIZE_PREFIX, FormatUsize(size));
  }

  /** The lines of formatted pointer text are the lines that were formatted. */
  lemma LinesOfFormat(sha256: string, size: nat, t: string, terminated: bool)
    requires IsLine(sha256) && IsTerminator(t)
    ensures Lines(Format(sha256, size, t, terminated)) == FormatLines(sha256, size)
  {
    var ls := FormatLines(sha256, size);
    FormatLinesAreLines(sha256, size);
    if terminated {
      LinesJoinLines(ls, t, "");
      assert JoinLines(ls, t) + "" == JoinLines(ls, t);
    } else {
      LinesJoinLines(ls[..2], t, ls[2]);
      assert ls[..2] + [ls[2]] == ls;
    }
  }

  /**
   * Round trip: the pointer git-lfs writes for any id without `\n` that does
   * not end in `\r` (`lines()` would strip that `\r`), and any size up to
   * `usize::MAX`, parses back to that id and size, whether the lines end in
   * `\n` or `\r\n` and whether or not the last one is terminated.
   */
  lemma ParseFormat(filename: Path, sha256: string, size: nat, t: string, terminated: bool)
    requires IsLine(sha256) && size <= USIZE_MAX && IsTerminator(t)
    ensures Parse(filename, Some(Format(sha256, size, t, terminated)))
         == Success(LfsPointer(sha256, size, filename))
  {
    LinesOfFormat(sha256, size, t, terminated);
    var ls := FormatLines(sha256, size);
    assert ls[1][..|OID_PREFIX|] == OID_PREFIX;
    assert ls[1][|OID_PREFIX|..] == sha256;
    assert ls[2][..|SIZE_PREFIX|] == SIZE_PREFIX;
    assert ls[2][|SIZE_PREFIX|..] == FormatUsize(size);
    Usize.ParseFormat(size);
  }

  /** The oid line may carry an empty id: `oid sha256:` alone is accepted. */
  lemma ParseAcceptsEmptyOid(filename: Path, size: nat)
    requires size <= USIZE_MAX
    ensures Parse(filename, Some(Format("", size, "\n", true)))
         == Success(LfsPointer("", size, filename))
  {
    ParseFormat(filename, "", size, "\n", true);
  }

  /** A blank fourth line, as in text ending in two line breaks, makes the file no pointer. */
  lemma ParseRejectsTrailingBlankLine(filename: Path, sha256: string, size: nat, t: string)
    requires IsLine(sha256) && IsTerminator(t)
    ensures Parse(filename, Some(Format(sha256, size, t, true) + t)) == Failure(WrongLineCount(4))
  {
    FormatLinesAreLines(sha256, size);
    LinesForTrailing(FormatLines(sha256, size), t);
  }

  /** A size field that `usize::from_str` rejects makes the file no pointer. */
  lemma ParseRejectsSize(filename: Path, sha256: string, field: string, t: string)
    requires IsLine(sha256) && IsTerminator(t) && IsLine(field)
    requires ParseUsize(field).None?
    ensures Parse(filename, Some(JoinLines([VERSION_LINE, OID_PREFIX + sha256, SIZE_PREFIX + field], t)))
         == Failure(InvalidSize(SIZE_PREFIX + field))
  {
    var ls := [VERSION_LINE, OID_PREFIX + sha256, SIZE_PREFIX + field];
    PrefixesAreLines();
    AppendIsLine(OID_PREFIX, sha256);
    AppendIsLine(SIZE_PREFIX, field);
    LinesJoinLines(ls, t, "");
    assert JoinLines(ls, t) + "" == JoinLines(ls, t);
    assert ls[1][..|OID_PREFIX|] == OID_PREFIX;
    assert ls[2][..|SIZE_PREFIX|] == SIZE_PREFIX;
    assert ls[2][|SIZE_PREFIX|..] == field;
  }

  /** The pointer text with `field` after `size `, lines ended by `\n`. */
  function WithSizeField(sha256: string, field: string): string {
    JoinLines([VERSION_LINE, OID_PREFIX + sha256, SIZE_PREFIX + field], "\n")
  }

  /** Size fields Rust rejects: a second space, a minus sign, trailing garbage. */
  lemma ParseRejectsMalformedSizes(filename: Path, sha256: string, size: nat)
    requires IsLine(sha256)
    ensures var ds := FormatUsize(size);
      && Parse(filename, Some(WithSizeField(sha256, " " + ds))).Failure?
      && Parse(filename, Some(WithSizeField(sha256, "-" + ds))).Failure?
      && Parse(filename, Some(WithSizeField(sha256, ds + " "))).Failure?
  {
    var ds := FormatUsize(size);
    ParseRejects(ds);
    DigitsAreLine(ds);
    assert IsLine(" " + ds) by {
      assert (" " + ds)[|" " + ds| - 1] == ds[|ds| - 1];
    }
    assert IsLine("-" + ds) by {
      assert ("-" + ds)[|"-" + ds| - 1] == ds[|ds| - 1];
    }
    ParseRejectsSize(filename, sha256, " " + ds, "\n");
    ParseRejectsSize(filename, sha256, "-" + ds, "\n");
    ParseRejectsSize(filename, sha256, ds + " ", "\n");
  }

  /** A size one past `usize::MAX` overflows and makes the file no pointer. */
  lemma ParseRejectsOverflowingSize(filename: Path, sha256: string)
    requires IsLine(sha256)
    ensures Parse(filename, Some(WithSizeField(sha256, FormatUsize(USIZE_MAX + 1)))).Failure?
  {
    ParseOverflow(USIZE_MAX + 1);
    DigitsAreLine(FormatUsize(USIZE_MAX + 1));
    ParseRejectsSize(filename, sha256, FormatUsize(USIZE_MAX + 1), "\n");
  }

  lemma DigitsAreLine(ds: string)
    requires IsCanonical(ds)
    ensures IsLine(ds)
  {
    assert IsDigit(ds[|ds| - 1]);
    assert forall i :: 0 <= i < |ds| ==> ds[i] != '\n';
  }
}

=== FILE: scan.dfy ===
/**
 * The scan for pointer files (src/main.rs lines 78-86): a depth-first walk
 * below the root that prunes every directory holding a `CACHEDIR.TAG`, then
 * the filters `e.ok()`, `len < 200` and `LfsPointer::parse(..).ok()`.
 *
 * The file system is an immutable tree. walkdir's visiting order among
 * siblings is the order of `children`; the program does not depend on it,
 * so the properties below are stated by membership.
 */
module TreeScan {
  import opened Wrappers
  import opened Text
  import opened Usize
  import opened Pointer

  /** The marker file whose presence excludes a directory, as cargo writes into `target/`. */
  const CACHEDIR_TAG: string := "CACHEDIR.TAG"

  /** Files of this many bytes or more are never read. */
  const SIZE_LIMIT: nat := 200

  /**
   * A file system entry. `size` is what `metadata().len()` reports; a file's
   * `text` is what `read_to_string` returns, `None` when that fails (for
   * instance on text that is not UTF-8). `Broken` is an entry walkdir reports
   * as an error and whose existence cannot be confirmed.
   */
  datatype Node =
    | File(size: nat, text: Option<string>)
    | Dir(size: nat, children: seq<Child>)
    | Broken

  /** A named entry of a directory. */
  datatype Child = Child(name: string, node: Node)

  /** What walkdir yields for an entry: its path below the root and the entry itself. */
  datatype WalkEntry = WalkEntry(path: Path, node: Node)

  /**
   * `join("CACHEDIR.TAG").exists()` on a directory listing, looked up entry by
   * entry: some entry of that name exists.
   */
  function HasMarker(cs: seq<Child>): (b: bool)
    ensures b <==> exists i :: 0 <= i < |cs| && cs[i].name == CACHEDIR_TAG && !cs[i].node.Broken?
    decreases cs
  {
    if cs == [] then false
    else if cs[0].name == CACHEDIR_TAG && !cs[0].node.Broken? then true
    else
      var b := HasMarker(cs[1..]);
      assert forall i :: 0 < i < |cs| ==> cs[1..][i - 1] == cs[i];
      b
  }

  /**
   * The pruning test of `filter_entry`: the node is a directory in which a
   * `CACHEDIR.TAG` exists. A broken entry of that name does not count, and
   * neither does a marker anywhere but directly inside the directory.
   */
  function Tagged(n: Node): (b: bool)
    ensures b <==> n.Dir? && exists i :: 0 <= i < |n.children| && n.children[i].name == CACHEDIR_TAG && !n.children[i].node.Broken?
  {
    n.Dir? && HasMarker(n.children)
  }

  /**
   * walkdir below `dir`, with `filter_entry` applied: a pre-order walk of
   * `cs`, child by child.
   */
  function Walk(cs: seq<Child>, dir: Path): (r: seq<Result<WalkEntry, Path>>)
    ensures forall e :: Success(e) in r ==> |e.path| > |dir| && e.path[..|dir|] == dir
    decreases cs
  {
    if cs == [] then [] else Visit(cs[0], dir) + Walk(cs[1..], dir)
  }

  /**
   * What walkdir yields for one child of `dir` and below it: an error for a
   * broken entry, nothing at all for a tagged directory, and otherwise the
   * entry followed by the walk of its children.
   */
  function Visit(c: Child, dir: Path): (r: seq<Result<WalkEntry, Path>>)
    ensures forall e :: Success(e) in r ==> |e.path| > |dir| && e.path[..|dir|] == dir
    decreases c
  {
    var path := dir + [c.name];
    match c.node
    case Broken => [Failure(path)]
    case File(_, _) => [Success(WalkEntry(path, c.node))]
    case Dir(_, sub) =>
      if Tagged(c.node) then []
      else
        var below := Walk(sub, path);
        assert forall e :: Success(e) in below ==> e.path[..|path|][..|dir|] == e.path[..|dir|];
        [Success(WalkEntry(path, c.node))] + below
  }

  /**
   * The independent description of what the walk yields: `n` is visible at
   * the relative path `rel` below some child when every directory on the way
   * to it is untagged, and `n` itself is neither broken nor tagged.
   */
  predicate Visible(cs: seq<Child>, rel: Path, n: Node)
    decreases cs
  {
    exists i :: 0 <= i < |cs| && VisibleIn(cs[i], rel, n)
  }

  /** `Visible` through the child `c`, whose name is the first component of `rel`. */
  predicate VisibleIn(c: Child, rel: Path, n: Node)
    decreases c
  {
    && |rel| > 0
    && c.name == rel[0]
    && if |rel| == 1 then c.node == n && !n.Broken? && !Tagged(n)
       else c.node.Dir? && !Tagged(c.node) && Visible(c.node.children, rel[1..], n)
  }

  /** `filter_map(|e| e.ok())`: the entries the walk did not report as errors. */
  function Entries(items: seq<Result<WalkEntry, Path>>): (es: seq<WalkEntry>)
    ensures forall e :: e in es <==> Success(e) in items
  {
    if items == [] then []
    else (if items[0].Success? then [items[0].value] else []) + Entries(items[1..])
  }

  /** `metadata()`, as far as its length goes; it fails on a broken entry. */
  function MetadataLen(n: Node): Option<nat> {
    match n
    case File(size, _) => Some(size)
    case Dir(size, _) => Some(size)
    case Broken => None
  }

  /** `f.metadata().map_or(false, |m| m.len() < 200)`. */
  predicate Small(e: WalkEntry) {
    MetadataLen(e.node).Some? && MetadataLen(e.node).value < SIZE_LIMIT
  }

  /** `filter(..)` with `Small`: the small entries, in order. */
  function KeepSmall(es: seq<WalkEntry>): seq<WalkEntry> {
    if es == [] then []
    else (if Small(es[0]) then [es[0]] else []) + KeepSmall(es[1..])
  }

  lemma {:induction false} KeepSmallMembers(es: seq<WalkEntry>)
    ensures forall e :: e in KeepSmall(es) <==> e in es && Small(e)
  {
    if es != [] {
      KeepSmallMembers(es[1..]);
      assert es == [es[0]] + es[1..];
    }
  }

  /** `filter(..)` with `Small`: exactly the small entries are kept. */
  function SmallEntries(es: seq<WalkEntry>): (r: seq<WalkEntry>)
    ensures forall e :: e in r <==> e in es && Small(e)
  {
    KeepSmallMembers(es);
    KeepSmall(es)
  }

  /** `read_to_string`: the text of a readable file; reading a directory fails. */
  function ReadText(n: Node): Option<string> {
    match n
    case File(_, text) => text
    case _ => None
  }

  /** `filter_map(|f| LfsPointer::parse(f.path()).ok())`. */
  function Pointers(es: seq<WalkEntry>): (ptrs: seq<LfsPointer>)
    ensures forall p :: p in ptrs <==> exists e :: e in es && Parse(e.path, ReadText(e.node)) == Success(p)
  {
    if es == [] then []
    else
      var e := es[0];
      (match Parse(e.path, ReadText(e.node)).ToOption() case Some(p) => [p] case None => [])
      + Pointers(es[1..])
  }

  /** The stages after the walk, on a sequence of walk items. */
  function Filter(items: seq<Result<WalkEntry, Path>>): seq<LfsPointer> {
    Pointers(SmallEntries(Entries(items)))
  }

  /**
   * The whole scan from the root. walkdir yields the root at depth 0, which
   * `min_depth(1)` drops and `filter_entry` never sees, so a root that is not
   * a directory gives nothing and a tagged root is still scanned.
   */
  function Scan(root: Node): (ptrs: seq<LfsPointer>)
    ensures forall k :: 0 <= k < |ptrs| ==> |ptrs[k].filename| >= 1 && ptrs[k].size <= USIZE_MAX
  {
    match root
    case Dir(_, cs) =>
      var r := Filter(Walk(cs, []));
      assert forall k :: 0 <= k < |r| ==> |r[k].filename| >= 1 && r[k].size <= USIZE_MAX by {
        forall k | 0 <= k < |r|
          ensures |r[k].filename| >= 1 && r[k].size <= USIZE_MAX
        {
          assert r[k] in r;
          var e :| e in SmallEntries(Entries(Walk(cs, []))) && Parse(e.path, ReadText(e.node)) == Success(r[k]);
          assert Success(e) in Walk(cs, []);
        }
      }
      r
    case _ => []
  }

  lemma VisibleCons(cs: seq<Child>, rel: Path, n: Node)
    requires cs != []
    ensures Visible(cs, rel, n) <==> VisibleIn(cs[0], rel, n) || Visible(cs[1..], rel, n)
  {
    if Visible(cs[1..], rel, n) {
      var i :| 0 <= i < |cs[1..]| && VisibleIn(cs[1..][i], rel, n);
      assert cs[i + 1] == cs[1..][i];
    }
    if Visible(cs, rel, n) && !VisibleIn(cs[0], rel, n) {
      var i :| 0 <= i < |cs| && VisibleIn(cs[i], rel, n);
      assert cs[1..][i - 1] == cs[i];
    }
  }

  /**
   * The walk yields exactly the visible entries: an entry at `dir + rel` is
   * yielded if and only if every directory on the way is untagged and the
   * entry is neither broken nor tagged.
   */
  lemma {:induction false} WalkVisible(cs: seq<Child>, dir: Path, rel: Path, n: Node)
    ensures Success(WalkEntry(dir + rel, n)) in Walk(cs, dir) <==> Visible(cs, rel, n)
    decreases cs
  {
    if cs != [] {
      VisitVisible(cs[0], dir, rel, n);
      WalkVisible(cs[1..], dir, rel, n);
      VisibleCons(cs, rel, n);
    }
  }

  lemma {:induction false} VisitVisible(c: Child, dir: Path, rel: Path, n: Node)
    ensures Success(WalkEntry(dir + rel, n)) in Visit(c, dir) <==> VisibleIn(c, rel, n)
    decreases c
  {
    var item: Result<WalkEntry, Path> := Success(WalkEntry(dir + rel, n));
    var path := dir + [c.name];
    assert (dir + rel)[|dir|..] == rel;
    assert (item == Success(WalkEntry(path, c.node))) <==> (rel == [c.name] && n == c.node);
    if c.node.Dir? && !Tagged(c.node) {
      var sub := c.node.children;
      if |rel| > 1 && rel[0] == c.name {
        assert dir + rel == path + rel[1..];
        WalkVisible(sub, path, rel[1..], n);
      }
    }
  }

  /** The walk of a concatenation of children is the concatenation of their walks. */
  lemma {:induction false} WalkAppend(a: seq<Child>, b: seq<Child>, dir: Path)
    ensures Walk(a + b, dir) == Walk(a, dir) + Walk(b, dir)
    decreases a
  {
    if a != [] {
      assert (a + b)[0] == a[0];
      assert (a + b)[1..] == a[1..] + b;
      WalkAppend(a[1..], b, dir);
    } else {
      assert a + b == b;
    }
  }

  lemma {:induction false} EntriesAppend(x: seq<Result<WalkEntry, Path>>, y: seq<Result<WalkEntry, Path>>)
    ensures Entries(x + y) == Entries(x) + Entries(y)
  {
    if x != [] {
      assert (x + y)[0] == x[0];
      assert (x + y)[1..] == x[1..] + y;
      EntriesAppend(x[1..], y);
    } else {
      assert x + y == y;
    }
  }

  lemma {:induction false} KeepSmallAppend(x: seq<WalkEntry>, y: seq<WalkEntry>)
    ensures KeepSmall(x + y) == KeepSmall(x) + KeepSmall(y)
  {
    if x != [] {
      assert (x + y)[0] == x[0];
      assert (x + y)[1..] == x[1..] + y;
      KeepSmallAppend(x[1..], y);
    } else {
      assert x + y == y;
    }
  }

  lemma SmallEntriesAppend(x: seq<WalkEntry>, y: seq<WalkEntry>)
    ensures SmallEntries(x + y) == SmallEntries(x) + SmallEntries(y)
  {
    KeepSmallAppend(x, y);
  }

  lemma {:induction false} PointersAppend(x: seq<WalkEntry>, y: seq<WalkEntry>)
    ensures Pointers(x + y) == Pointers(x) + Pointers(y)
  {
    if x != [] {
      assert (x + y)[0] == x[0];
      assert (x + y)[1..] == x[1..] + y;
      PointersAppend(x[1..], y);
    } else {
      assert x + y == y;
    }
  }

  lemma FilterAppend(x: seq<Result<WalkEntry, Path>>, y: seq<Result<WalkEntry, Path>>)
    ensures Filter(x + y) == Filter(x) + Filter(y)
  {
    EntriesAppend(x, y);
    SmallEntriesAppend(Entries(x), Entries(y));
    PointersAppend(SmallEntries(Entries(x)), SmallEntries(Entries(y)));
  }

  /** The scan finds what the stages after the walk let through. */
  lemma ScanEntry(size: nat, cs: seq<Child>, p: LfsPointer)
    ensures p in Scan(Dir(size, cs)) <==>
      exists e :: Success(e) in Walk(cs, []) && Small(e) && Parse(e.path, ReadText(e.node)) == Success(p)
  {
    var walk := Walk(cs, []);
    assert Scan(Dir(size, cs)) == Pointers(SmallEntries(Entries(walk)));
    if exists e :: Success(e) in walk && Small(e) && Parse(e.path, ReadText(e.node)) == Success(p) {
      var e :| Success(e) in walk && Small(e) && Parse(e.path, ReadText(e.node)) == Success(p);
      assert e in SmallEntries(Entries(walk));
    }
  }

  /** A visible small file whose text parses is found. */
  lemma VisibleFound(size: nat, cs: seq<Child>, fsize: nat, text: string, p: LfsPointer)
    requires Visible(cs, p.filename, File(fsize, Some(text)))
    requires fsize < SIZE_LIMIT && Parse(p.filename, Some(text)) == Success(p)
    ensures p in Scan(Dir(size, cs))
  {
    var e := WalkEntry(p.filename, File(fsize, Some(text)));
    assert Success(e) in Walk(cs, []) by {
      assert [] + e.path == e.path;
      WalkVisible(cs, [], e.path, e.node);
    }
    assert Small(e) && Parse(e.path, ReadText(e.node)) == Success(p);
    ScanEntry(size, cs, p);
  }

  /** Whatever is found comes from a visible small file whose text parses. */
  lemma FoundVisible(size: nat, cs: seq<Child>, p: LfsPointer) returns (fsize: nat, text: string)
    requires p in Scan(Dir(size, cs))
    ensures Visible(cs, p.filename, File(fsize, Some(text)))
    ensures fsize < SIZE_LIMIT && Parse(p.filename, Some(text)) == Success(p)
  {
    ScanEntry(size, cs, p);
    var e :| Success(e) in Walk(cs, []) && Small(e) && Parse(e.path, ReadText(e.node)) == Success(p);
    assert [] + e.path == e.path;
    WalkVisible(cs, [], e.path, e.node);
    fsize, text := e.node.size, e.node.text.value;
  }

  /**
   * What the scan finds, as a set: exactly the pointers parsed from files of
   * fewer than 200 bytes that are visible below the root, that is, not
   * inside any directory holding a `CACHEDIR.TAG`.
   */
  lemma ScanFinds(size: nat, cs: seq<Child>, p: LfsPointer)
    ensures p in Scan(Dir(size, cs)) <==>
      exists fsize: nat, text: string ::
        && Visible(cs, p.filename, File(fsize, Some(text)))
        && fsize < SIZE_LIMIT
        && Parse(p.filename, Some(text)) == Success(p)
  {
    if p in Scan(Dir(size, cs)) {
      var fsize, text := FoundVisible(size, cs, p);
    }
    if exists fsize: nat, text: string ::
        && Visible(cs, p.filename, File(fsize, Some(text)))
        && fsize < SIZE_LIMIT
        && Parse(p.filename, Some(text)) == Success(p)
    {
      var fsize: nat, text: string :|
        && Visible(cs, p.filename, File(fsize, Some(text)))
        && fsize < SIZE_LIMIT
        && Parse(p.filename, Some(text)) == Success(p);
      VisibleFound(size, cs, fsize, text, p);
    }
  }

  /**
   * A directory directly under the root holding a `CACHEDIR.TAG` contributes
   * nothing to the scan, and everything outside it is found as before, in the
   * same order. `ScanPrunesTagged` states the same for every depth at once.
   */
  lemma ScanSkipsTagged(size: nat, before: seq<Child>, tagged: Child, after: seq<Child>)
    requires Tagged(tagged.node)
    ensures Scan(Dir(size, before + [tagged] + after)) == Scan(Dir(size, before + after))
  {
    assert Walk([tagged], []) == [] by {
      assert [tagged][1..] == [];
      assert Walk([tagged], []) == Visit(tagged, []) + Walk([], []);
    }
    assert Walk(before + [tagged] + after, []) == Walk(before + after, []) by {
      WalkAppend(before + [tagged], after, []);
      WalkAppend(before, [tagged], []);
      WalkAppend(before, after, []);
    }
    ScanWalk(size, before + [tagged] + after);
    ScanWalk(size, before + after);
  }

  /**
   * The children `cs` with every tagged directory removed, at every depth;
   * what is left of a directory keeps its name and size.
   */
  function PruneTagged(cs: seq<Child>): (r: seq<Child>)
    ensures HasMarker(r) ==> HasMarker(cs)
    decreases cs
  {
    if cs == [] then []
    else
      var head := PruneChild(cs[0]);
      var rest := PruneTagged(cs[1..]);
      assert forall i :: 0 <= i < |head| ==> head[i].name == cs[0].name && head[i].node.Broken? == cs[0].node.Broken?;
      assert forall i :: 0 < i < |cs| ==> cs[1..][i - 1] == cs[i];
      assert forall i :: |head| <= i < |head + rest| ==> (head + rest)[i] == rest[i - |head|];
      head + rest
  }

  /** One child with tagged directories removed: nothing if it is one, else itself, pruned below. */
  function PruneChild(c: Child): (r: seq<Child>)
    ensures |r| <= 1
    ensures forall i :: 0 <= i < |r| ==> r[i].name == c.name && r[i].node.Broken? == c.node.Broken?
    ensures forall i :: 0 <= i < |r| ==> r[i].node.Dir? == c.node.Dir? && (c.node.File? ==> r[i] == c)
    ensures c.node.Dir? ==> (r == [] <==> Tagged(c.node))
    decreases c
  {
    match c.node
    case Dir(size, sub) => if Tagged(c.node) then [] else [Child(c.name, Dir(size, PruneTagged(sub)))]
    case _ => [c]
  }

  /** A directory entry is never a pointer: `read_to_string` fails on it. */
  lemma FilterDirEntry(e: WalkEntry)
    requires e.node.Dir?
    ensures Filter([Success(e)]) == []
  {
    FilterOne(e);
  }

  /** Walking the pruned children finds the same pointers, in the same order. */
  lemma {:induction false} WalkPruned(cs: seq<Child>, dir: Path)
    ensures Filter(Walk(PruneTagged(cs), dir)) == Filter(Walk(cs, dir))
    decreases cs
  {
    if cs != [] {
      var head := PruneChild(cs[0]);
      var rest := PruneTagged(cs[1..]);
      WalkAppend(head, rest, dir);
      FilterAppend(Walk(head, dir), Walk(rest, dir));
      FilterAppend(Visit(cs[0], dir), Walk(cs[1..], dir));
      VisitPruned(cs[0], dir);
      WalkPruned(cs[1..], dir);
    }
  }

  lemma {:induction false} VisitPruned(c: Child, dir: Path)
    ensures Filter(Walk(PruneChild(c), dir)) == Filter(Visit(c, dir))
    decreases c
  {
    if c.node.Dir? && !Tagged(c.node) {
      var path := dir + [c.name];
      var sub := c.node.children;
      var pruned := Dir(c.node.size, PruneTagged(sub));
      assert PruneChild(c) == [Child(c.name, pruned)];
      WalkSingle(Child(c.name, pruned), dir);
      assert !Tagged(pruned);
      assert Visit(Child(c.name, pruned), dir) == [Success(WalkEntry(path, pruned))] + Walk(PruneTagged(sub), path);
      FilterDirVisit(WalkEntry(path, pruned), Walk(PruneTagged(sub), path));
      FilterDirVisit(WalkEntry(path, c.node), Walk(sub, path));
      WalkPruned(sub, path);
    } else if !c.node.Dir? {
      WalkSingle(c, dir);
    }
  }

  /** The walk of a single child is the visit of that child. */
  lemma WalkSingle(c: Child, dir: Path)
    ensures Walk([c], dir) == Visit(c, dir)
  {
    assert [c][1..] == [];
    assert Visit(c, dir) + [] == Visit(c, dir);
  }

  /** A directory entry in front of further items adds no pointer. */
  lemma FilterDirVisit(e: WalkEntry, below: seq<Result<WalkEntry, Path>>)
    requires e.node.Dir?
    ensures Filter([Success(e)] + below) == Filter(below)
  {
    FilterAppend([Success(e)], below);
    FilterDirEntry(e);
    assert [] + Filter(below) == Filter(below);
  }

  /**
   * `filter_entry` prunes at every depth: removing every directory that holds
   * a `CACHEDIR.TAG`, wherever it lies below the root, changes neither which
   * pointers the scan finds nor their order.
   */
  lemma ScanPrunesTagged(size: nat, cs: seq<Child>)
    ensures Scan(Dir(size, PruneTagged(cs))) == Scan(Dir(size, cs))
  {
    ScanWalk(size, PruneTagged(cs));
    ScanWalk(size, cs);
    WalkPruned(cs, []);
  }

  /** The scan of a directory root is the filtered walk of its children. */
  lemma ScanWalk(size: nat, cs: seq<Child>)
    ensures Scan(Dir(size, cs)) == Filter(Walk(cs, []))
  {
  }

  /** The walk of a single file below `dir` yields just that file. */
  lemma WalkFile(c: Child, dir: Path)
    requires c.node.File?
    ensures Walk([c], dir) == [Success(WalkEntry(dir + [c.name], c.node))]
  {
    assert [c][1..] == [];
  }

  /** The stages after the walk, on one entry: it passes when it is small and parses. */
  lemma FilterOne(e: WalkEntry)
    ensures Filter([Success(e)]) ==
      (if Small(e) && Parse(e.path, ReadText(e.node)).Success? then [Parse(e.path, ReadText(e.node)).value] else [])
  {
    var items: seq<Result<WalkEntry, Path>> := [Success(e)];
    assert items[1..] == [];
    assert Entries(items) == [e];
    assert [e][1..] == [];
    assert KeepSmall([e]) == (if Small(e) then [e] else []) + KeepSmall([]);
    if Small(e) {
      assert SmallEntries([e]) == [e];
      var r := Parse(e.path, ReadText(e.node));
      assert Pointers([e]) == (if r.Success? then [r.value] else []) + Pointers([]);
    } else {
      assert SmallEntries([e]) == [];
    }
  }

  /**
   * The root is never pruned: a root holding a `CACHEDIR.TAG` is tagged, yet
   * everything else in it is found as before.
   */
  lemma ScanIgnoresRootTag(size: nat, cs: seq<Child>, tagSize: nat)
    ensures Tagged(Dir(size, cs + [Child(CACHEDIR_TAG, File(tagSize, Some("")))]))
    ensures Scan(Dir(size, cs + [Child(CACHEDIR_TAG, File(tagSize, Some("")))])) == Scan(Dir(size, cs))
  {
    var tag := Child(CACHEDIR_TAG, File(tagSize, Some("")));
    var all := cs + [tag];
    assert all[|cs|] == tag;
    WalkAppend(cs, [tag], []);
    WalkFile(tag, []);
    FilterAppend(Walk(cs, []), Walk([tag], []));
    assert Lines("") == [];
    FilterOne(WalkEntry([] + [CACHEDIR_TAG], tag.node));
    assert Filter(Walk(cs, [])) + [] == Filter(Walk(cs, []));
  }

  /**
   * The size bound is strict: a valid pointer file of 199 bytes is found and
   * the same text in a file of 200 bytes is not.
   */
  lemma ScanSizeBoundary(size: nat, name: string, text: string)
    requires Parse([name], Some(text)).Success?
    ensures Scan(Dir(size, [Child(name, File(199, Some(text)))])) == [Parse([name], Some(text)).value]
    ensures Scan(Dir(size, [Child(name, File(200, Some(text)))])) == []
  {
    ScanOneFile(size, name, File(199, Some(text)));
    FilterOne(WalkEntry([name], File(199, Some(text))));
    ScanOneFile(size, name, File(200, Some(text)));
    FilterOne(WalkEntry([name], File(200, Some(text))));
  }

  /** A root holding a single file: the scan filters just that file. */
  lemma ScanOneFile(size: nat, name: string, f: Node)
    requires f.File?
    ensures Scan(Dir(size, [Child(name, f)])) == Filter([Success(WalkEntry([name], f))])
  {
    ScanWalk(size, [Child(name, f)]);
    WalkFile(Child(name, f), []);
    assert [] + [name] == [name];
  }
}

=== FILE: text.dfy ===
/** String helpers with Rust `str` semantics: prefix tests and `str::lines`. */
module Text {
  import opened Wrappers

  /** True when `s` begins with `p`. */
  predicate StartsWith(s: string, p: string) {
    |p| <= |s| && s[..|p|] == p
  }

  /** Rust's `str::strip_prefix`: what follows `p`, when `s` starts with it. */
  function StripPrefix(s: string, p: string): (r: Option<string>)
    ensures r.Some? <==> StartsWith(s, p)
    ensures r.Some? ==> s == p + r.value
  {
    if StartsWith(s, p) then Some(s[|p|..]) else None
  }

  /** True when the last character of `s` is `c`. */
  predicate EndsWith(s: string, c: char) {
    |s| > 0 && s[|s| - 1] == c
  }

  /** Position of the first `c` in `s`, or `|s|` when `s` has none. */
  function IndexOf(s: string, c: char): (i: nat)
    ensures i <= |s|
    ensures i < |s| ==> s[i] == c
    ensures forall j :: 0 <= j < i ==> s[j] != c
  {
    if s == [] then 0
    else if s[0] == c then 0
    else 1 + IndexOf(s[1..], c)
  }

  lemma {:induction false} IndexOfAfter(a: string, c: char, b: string)
    requires forall j :: 0 <= j < |a| ==> a[j] != c
    ensures IndexOf(a + [c] + b, c) == |a|
  {
    if a != [] {
      assert (a + [c] + b)[1..] == a[1..] + [c] + b;
      IndexOfAfter(a[1..], c, b);
    }
  }

  /** Removes one trailing carriage return, as `str::lines` does for a `\r\n` ending. */
  function StripCr(l: string): (r: string)
    ensures EndsWith(l, '\r') ==> l == r + "\r"
    ensures !EndsWith(l, '\r') ==> r == l
  {
    if EndsWith(l, '\r') then l[..|l| - 1] else l
  }

  /**
   * Rust's `str::lines`: the pieces between `\n` characters, each with one
   * trailing `\r` removed; a final `\n` does not start an empty last line,
   * and the empty string has no lines.
   */
  function Lines(s: string): (r: seq<string>)
    decreases |s|
  {
    if s == [] then []
    else
      var i := IndexOf(s, '\n');
      if i == |s| then [StripCr(s)]
      else [StripCr(s[..i])] + Lines(s[i + 1..])
  }

  /** No line holds a `\n`. */
  lemma {:induction false} LinesHaveNoBreak(s: string)
    ensures forall k :: 0 <= k < |Lines(s)| ==> '\n' !in Lines(s)[k]
    decreases |s|
  {
    if s != [] {
      var i := IndexOf(s, '\n');
      if i == |s| {
        assert forall j :: 0 <= j < |s| ==> s[j] != '\n';
      } else {
        LinesHaveNoBreak(s[i + 1..]);
        assert forall j :: 0 <= j < |s[..i]| ==> s[..i][j] != '\n';
      }
    }
  }

  /** Number of `\n` characters in `s`. */
  function NewlineCount(s: string): nat {
    multiset(s)['\n']
  }

  /** A line count: one per `\n`, plus one for an unterminated final line. */
  lemma {:induction false} LinesCount(s: string)
    ensures |Lines(s)| == NewlineCount(s) + (if s != [] && !EndsWith(s, '\n') then 1 else 0)
    decreases |s|
  {
    if s != [] {
      var i := IndexOf(s, '\n');
      if i == |s| {
        assert s == s[..i];
      } else {
        var rest := s[i + 1..];
        assert s == s[..i] + [s[i]] + rest;
        assert multiset(s) == multiset(s[..i]) + multiset([s[i]]) + multiset(rest);
        LinesCount(rest);
        if rest == [] {
          assert EndsWith(s, '\n');
        } else {
          assert s[|s| - 1] == rest[|rest| - 1];
        }
      }
    }
  }

  /** A line terminator `str::lines` recognises. */
  predicate IsTerminator(t: string) {
    t == "\n" || t == "\r\n"
  }

  /** A line `str::lines` can return unchanged: no `\n`, no trailing `\r`. */
  predicate IsLine(l: string) {
    '\n' !in l && !EndsWith(l, '\r')
  }

  /** Two pieces of lines make a line. */
  lemma AppendIsLine(p: string, x: string)
    requires IsLine(p) && IsLine(x)
    ensures IsLine(p + x)
  {
    if x != [] {
      assert (p + x)[|p + x| - 1] == x[|x| - 1];
    } else {
      assert p + x == p;
    }
  }

  /** Every line followed by the terminator `t`. */
  function JoinLines(ls: seq<string>, t: string): string {
    if ls == [] then "" else ls[0] + t + JoinLines(ls[1..], t)
  }

  /** Splitting after one line peels that line off. */
  lemma LinesCons(l: string, t: string, rest: string)
    requires IsLine(l) && IsTerminator(t)
    ensures Lines(l + t + rest) == [l] + Lines(rest)
  {
    var s := l + t + rest;
    if t == "\n" {
      assert s == l + ['\n'] + rest;
      IndexOfAfter(l, '\n', rest);
      assert s[..|l|] == l;
      assert s[|l| + 1..] == rest;
    } else {
      assert s == (l + "\r") + ['\n'] + rest;
      assert '\n' !in l + "\r";
      IndexOfAfter(l + "\r", '\n', rest);
      assert s[..|l| + 1] == l + "\r";
      assert s[|l| + 2..] == rest;
    }
  }

  /** A single line without a terminator is returned whole; the empty string has no lines. */
  lemma LinesOfLine(l: string)
    requires IsLine(l)
    ensures Lines(l) == (if l == [] then [] else [l])
  {
    if l != [] {
      assert IndexOf(l, '\n') == |l|;
    }
  }

  /**
   * Splitting lines joined with a terminator gives them back, followed by a
   * final unterminated line `last` unless that is empty.
   */
  lemma {:induction false} LinesJoinLines(ls: seq<string>, t: string, last: string)
    requires forall k :: 0 <= k < |ls| ==> IsLine(ls[k])
    requires IsTerminator(t) && IsLine(last)
    ensures Lines(JoinLines(ls, t) + last) == ls + (if last == [] then [] else [last])
  {
    if ls == [] {
      assert JoinLines(ls, t) + last == last;
      LinesOfLine(last);
    } else {
      var rest := JoinLines(ls[1..], t) + last;
      var tail := if last == [] then [] else [last];
      calc {
        Lines(JoinLines(ls, t) + last);
        { assert JoinLines(ls, t) + last == ls[0] + t + rest; }
        Lines(ls[0] + t + rest);
        { LinesCons(ls[0], t, rest); }
        [ls[0]] + Lines(rest);
        { LinesJoinLines(ls[1..], t, last); }
        [ls[0]] + (ls[1..] + tail);
        { assert ls == [ls[0]] + ls[1..]; }
        ls + tail;
      }
    }
  }

  /** A lone terminator is one empty line. */
  lemma LinesOfTerminator(t: string)
    requires IsTerminator(t)
    ensures Lines(t) == [""]
  {
    LinesCons("", t, "");
    assert "" + t + "" == t;
  }

  /** Appending a terminator to terminated lines adds one empty line. */
  lemma {:induction false} LinesForTrailing(ls: seq<string>, t: string)
    requires forall k :: 0 <= k < |ls| ==> IsLine(ls[k])
    requires IsTerminator(t)
    ensures Lines(JoinLines(ls, t) + t) == ls + [""]
  {
    if ls == [] {
      assert JoinLines(ls, t) + t == t;
      LinesOfTerminator(t);
    } else {
      var rest := JoinLines(ls[1..], t) + t;
      calc {
        Lines(JoinLines(ls, t) + t);
        { assert JoinLines(ls, t) + t == ls[0] + t + rest; }
        Lines(ls[0] + t + rest);
        { LinesCons(ls[0], t, rest); }
        [ls[0]] + Lines(rest);
        { LinesForTrailing(ls[1..], t); }
        [ls[0]] + (ls[1..] + [""]);
        { assert ls == [ls[0]] + ls[1..]; }
        ls + [""];
      }
    }
  }
}

=== FILE: uri.dfy ===
/**
 * Reference resolution from section 5.2 of RFC 3986, at the level of URL
 * components: a relative reference is split into path, query and fragment
 * (section 5.2.2), its path merged with the base path (section 5.2.3) and
 * cleaned of `.` and `..` segments (section 5.2.4).
 */
module Uri {
  import opened Wrappers
  import opened Text

  /** An absolute URL with an authority, split into its RFC 3986 components. */
  datatype Url = Url(
    scheme: string,
    authority: string,
    path: string,
    query: Option<string>,
    fragment: Option<string>)

  /** A path that is empty or begins with `/`: the only kind a URL with an authority has. */
  predicate IsAbsolutePath(p: string) {
    p == [] || p[0] == '/'
  }

  /** A relative reference split into its components; it has no scheme and no authority. */
  datatype Reference = Reference(path: string, query: Option<string>, fragment: Option<string>)

  /** The characters RFC 3986 and the WHATWG URL Standard both keep as they are in a reference. */
  predicate IsPlainChar(c: char) {
    || ('a' <= c <= 'z')
    || ('A' <= c <= 'Z')
    || ('0' <= c <= '9')
    || c == '-' || c == '.' || c == '_' || c == '~'
    || c == '!' || c == '$' || c == '&' || c == '(' || c == ')'
    || c == '*' || c == '+' || c == ',' || c == ';' || c == '=' || c == '@'
  }

  /**
   * A reference made of plain characters and the delimiters `/`, `?` and `#`
   * that does not start with `//`: a relative-path or absolute-path reference,
   * never one with a scheme (no `:`) or an authority.
   */
  predicate IsRelativeRef(s: string) {
    && (forall i :: 0 <= i < |s| ==> IsPlainChar(s[i]) || s[i] == '/' || s[i] == '?' || s[i] == '#')
    && !StartsWith(s, "//")
  }

  /** A reference written back from its components. */
  function Recompose(r: Reference): string {
    r.path
    + (if r.query.Some? then "?" + r.query.value else "")
    + (if r.fragment.Some? then "#" + r.fragment.value else "")
  }

  /**
   * Splits a reference at its first `#` (the fragment follows it) and what
   * comes before at its first `?` (the query follows it).
   */
  function SplitReference(s: string): (r: Reference)
    ensures Recompose(r) == s
    ensures forall i :: 0 <= i < |r.path| ==> r.path[i] != '?' && r.path[i] != '#'
    ensures r.query.Some? ==> forall i :: 0 <= i < |r.query.value| ==> r.query.value[i] != '#'
    ensures StartsWith(s, r.path)
  {
    var h := IndexOf(s, '#');
    var beforeHash := s[..h];
    var q := IndexOf(beforeHash, '?');
    var r := Reference(
      beforeHash[..q],
      if q < |beforeHash| then Some(beforeHash[q + 1..]) else None,
      if h < |s| then Some(s[h + 1..]) else None);
    assert forall i :: 0 <= i < h ==> s[i] != '#';
    assert forall i :: 0 <= i < q ==> beforeHash[i] != '?' && beforeHash[i] != '#';
    SplitReferenceRecompose(s, h, q, r);
    r
  }

  lemma SplitReferenceRecompose(s: string, h: nat, q: nat, r: Reference)
    requires h <= |s| && (h < |s| ==> s[h] == '#')
    requires q <= h && (q < h ==> s[q] == '?')
    requires r.path == s[..q]
    requires r.query == (if q < h then Some(s[q + 1..h]) else None)
    requires r.fragment == (if h < |s| then Some(s[h + 1..]) else None)
    ensures Recompose(r) == s
  {
    var beforeHash := s[..h];
    assert beforeHash == r.path + (if r.query.Some? then "?" + r.query.value else "");
    assert s == beforeHash + (if r.fragment.Some? then "#" + r.fragment.value else "");
  }

  /** The base path up to and including its last `/`, or nothing when it has no `/`. */
  function Directory(p: string): (d: string)
    ensures StartsWith(p, d)
    ensures d == [] || d[|d| - 1] == '/'
    ensures forall i :: |d| <= i < |p| ==> p[i] != '/'
    ensures p != [] && p[0] == '/' ==> d != []
  {
    if p == [] then []
    else if p[|p| - 1] == '/' then p
    else Directory(p[..|p| - 1])
  }

  /** Section 5.2.3 of RFC 3986: the path of a relative-path reference against the base path. */
  function Merge(basePath: string, refPath: string): (r: string)
    requires IsAbsolutePath(basePath)
    ensures r != [] && r[0] == '/'
    ensures |r| > |refPath| && r[|r| - |refPath|..] == refPath
    ensures basePath == [] ==> r == "/" + refPath
    ensures basePath != [] ==>
      var dir := r[..|r| - |refPath|];
      StartsWith(basePath, dir) && EndsWith(dir, '/')
      && forall i :: |dir| <= i < |basePath| ==> basePath[i] != '/'
  {
    if basePath == [] then "/" + refPath
    else
      var d := Directory(basePath);
      assert (d + refPath)[..|d|] == d;
      d + refPath
  }

  /** The output buffer with its last segment and the `/` before that removed. */
  function DropLastSegment(output: string): (r: string)
    ensures |r| <= |output| && r == output[..|r|]
    ensures r == [] || (|r| < |output| && output[|r|] == '/')
    ensures forall i :: |r| < i < |output| ==> output[i] != '/'
  {
    var d := Directory(output);
    if d == [] then [] else d[..|d| - 1]
  }

  /** Where the first segment of `input`, with the `/` before it if any, ends. */
  function SegmentEnd(input: string): (k: nat)
    requires input != []
    ensures 1 <= k <= |input|
    ensures k < |input| ==> input[k] == '/'
    ensures forall i :: 1 <= i < k ==> input[i] != '/'
  {
    1 + IndexOf(input[1..], '/')
  }

  /** `s` has the character `c` at position `i`. */
  predicate At(s: string, i: nat, c: char) {
    i < |s| && s[i] == c
  }

  /** The loop of section 5.2.4 of RFC 3986, from `input` onto the end of `output`. */
  function RemoveDotSegmentsFrom(input: string, output: string): string
    decreases |input|
  {
    if input == [] then output
    // rule A: a leading "../" or "./" is removed
    else if At(input, 0, '.') && At(input, 1, '.') && At(input, 2, '/') then
      RemoveDotSegmentsFrom(input[3..], output)
    else if At(input, 0, '.') && At(input, 1, '/') then
      RemoveDotSegmentsFrom(input[2..], output)
    // rule B: a leading "/./" or a whole "/." becomes "/"
    else if At(input, 0, '/') && At(input, 1, '.') && At(input, 2, '/') then
      RemoveDotSegmentsFrom(input[2..], output)
    else if |input| == 2 && At(input, 0, '/') && At(input, 1, '.') then
      RemoveDotSegmentsFrom("/", output)
    // rule C: a leading "/../" or a whole "/.." becomes "/" and drops the last output segment
    else if At(input, 0, '/') && At(input, 1, '.') && At(input, 2, '.') && At(input, 3, '/') then
      RemoveDotSegmentsFrom(input[3..], DropLastSegment(output))
    else if |input| == 3 && At(input, 0, '/') && At(input, 1, '.') && At(input, 2, '.') then
      RemoveDotSegmentsFrom("/", DropLastSegment(output))
    // rule D: a whole "." or ".." is removed
    else if (|input| == 1 && At(input, 0, '.')) || (|input| == 2 && At(input, 0, '.') && At(input, 1, '.')) then
      output
    // rule E: the first segment moves to the output
    else
      var k := SegmentEnd(input);
      RemoveDotSegmentsFrom(input[k..], output + input[..k])
  }

  /** Section 5.2.4 of RFC 3986: interprets and removes `.` and `..` segments. */
  function RemoveDotSegments(path: string): (r: string)
    ensures IsAbsolutePath(path) ==> IsAbsolutePath(r) && DotFree(r)
  {
    if IsAbsolutePath(path) then
      RemoveDotSegmentsFromResult(path, []);
      RemoveDotSegmentsFrom(path, [])
    else
      RemoveDotSegmentsFrom(path, [])
  }

  /** Position `j` of `p` is where a segment begins. */
  predicate SegmentStart(p: string, j: int) {
    j == 0 || (0 < j <= |p| && p[j - 1] == '/')
  }

  /** A `.` or `..` segment begins at position `j` of `p`. */
  predicate DotSegmentAt(p: string, j: nat) {
    || (At(p, j, '.') && (j + 1 == |p| || At(p, j + 1, '/')))
    || (At(p, j, '.') && At(p, j + 1, '.') && (j + 2 == |p| || At(p, j + 2, '/')))
  }

  /** No segment of `p` is `.` or `..`. */
  predicate DotFree(p: string) {
    forall j: nat :: j <= |p| && SegmentStart(p, j) ==> !DotSegmentAt(p, j)
  }

  /** The segment `.` or `..`. */
  predicate IsDotSegment(seg: string) {
    || (|seg| == 1 && seg[0] == '.')
    || (|seg| == 2 && seg[0] == '.' && seg[1] == '.')
  }

  /** A segment of plain characters (so without `/`, `?` or `#`) that is neither `.` nor `..`. */
  predicate IsPlainSegment(s: string) {
    && !IsDotSegment(s)
    && (forall i :: 0 <= i < |s| ==> IsPlainChar(s[i]))
  }

  lemma DotFreeSuffix(p: string, k: nat)
    requires DotFree(p) && k <= |p| && (k == |p| || p[k] == '/')
    ensures DotFree(p[k..])
  {
    var q := p[k..];
    forall j: nat | j <= |q| && SegmentStart(q, j)
      ensures !DotSegmentAt(q, j)
    {
      if j > 0 {
        assert SegmentStart(p, k + j);
        assert DotSegmentAt(q, j) == DotSegmentAt(p, k + j);
      }
    }
  }

  lemma DotFreePrefix(p: string, m: nat)
    requires DotFree(p) && m <= |p| && (m == |p| || p[m] == '/')
    ensures DotFree(p[..m])
  {
    var q := p[..m];
    forall j: nat | j <= |q| && SegmentStart(q, j)
      ensures !DotSegmentAt(q, j)
    {
      assert SegmentStart(p, j);
      assert DotSegmentAt(q, j) ==> DotSegmentAt(p, j);
    }
  }

  /** Appending `/` and a segment other than `.` and `..` keeps a path free of dot segments. */
  lemma DotFreeAppend(out: string, piece: string)
    requires DotFree(out)
    requires piece != [] && piece[0] == '/'
    requires forall i :: 1 <= i < |piece| ==> piece[i] != '/'
    requires !IsDotSegment(piece[1..])
    ensures DotFree(out + piece)
  {
    var p := out + piece;
    forall j: nat | j <= |p| && SegmentStart(p, j)
      ensures !DotSegmentAt(p, j)
    {
      if j < |out| {
        assert SegmentStart(out, j);
        assert DotSegmentAt(p, j) ==> DotSegmentAt(out, j);
      } else if j == |out| {
        assert p[j] == '/';
      } else {
        assert p[j - 1] == piece[j - 1 - |out|];
        assert j == |out| + 1;
        var seg := piece[1..];
        assert forall i :: 0 <= i < |seg| ==> p[j + i] == seg[i] && seg[i] != '/';
        assert DotSegmentAt(p, j) ==> IsDotSegment(seg);
      }
    }
  }

  /** A path free of dot segments comes through the loop unchanged. */
  lemma {:induction false} RemoveDotSegmentsFromDotFree(input: string, output: string)
    requires IsAbsolutePath(input) && DotFree(input)
    ensures RemoveDotSegmentsFrom(input, output) == output + input
    decreases |input|
  {
    if input != [] {
      assert SegmentStart(input, 1);
      assert !DotSegmentAt(input, 1);
      var k := SegmentEnd(input);
      DotFreeSuffix(input, k);
      RemoveDotSegmentsFromDotFree(input[k..], output + input[..k]);
      assert output + input[..k] + input[k..] == output + input;
    }
  }

  /** A dot segment in `a + b`, for `b` empty or starting a new segment, is one in `a`. */
  lemma DotSegmentAtAppend(a: string, b: string, j: nat)
    requires j <= |a| && (b == [] || b[0] == '/')
    ensures DotSegmentAt(a + b, j) ==> DotSegmentAt(a, j)
  {
  }

  /** Rule E of the loop: an input that does not begin with a dot segment moves its first segment. */
  lemma RuleE(input: string, output: string)
    requires input != [] && input[0] == '/' && !DotSegmentAt(input, 1)
    ensures var k := SegmentEnd(input);
      RemoveDotSegmentsFrom(input, output) == RemoveDotSegmentsFrom(input[k..], output + input[..k])
  {
  }

  /** The first segment of `a + b` lies within `a` when `a` is free of dot segments. */
  lemma FirstSegmentOfAppend(a: string, b: string)
    requires a != [] && a[0] == '/' && DotFree(a)
    requires b == [] || b[0] == '/'
    ensures !DotSegmentAt(a + b, 1)
    ensures SegmentEnd(a + b) <= |a|
    ensures (a + b)[..SegmentEnd(a + b)] == a[..SegmentEnd(a + b)]
    ensures (a + b)[SegmentEnd(a + b)..] == a[SegmentEnd(a + b)..] + b
    ensures SegmentEnd(a + b) < |a| ==> a[SegmentEnd(a + b)] == '/'
  {
    var input := a + b;
    assert !DotSegmentAt(input, 1) by {
      DotSegmentAtAppend(a, b, 1);
      assert SegmentStart(a, 1);
    }
    assert |a| < |input| ==> input[|a|] == '/';
  }

  /** Rule E on `a + b` moves the first segment of `a`. */
  lemma MoveFirstSegment(a: string, b: string, output: string)
    requires a != [] && a[0] == '/' && DotFree(a)
    requires b == [] || b[0] == '/'
    ensures SegmentEnd(a + b) <= |a|
    ensures RemoveDotSegmentsFrom(a + b, output)
      == RemoveDotSegmentsFrom(a[SegmentEnd(a + b)..] + b, output + a[..SegmentEnd(a + b)])
  {
    FirstSegmentOfAppend(a, b);
    RuleE(a + b, output);
  }

  /**
   * The loop works segment by segment: a leading path free of dot segments
   * moves to the output whole before the rest of the input is looked at.
   */
  lemma {:induction false} RemoveDotSegmentsFromAppend(a: string, b: string, output: string)
    requires a != [] && a[0] == '/' && DotFree(a)
    requires b == [] || b[0] == '/'
    ensures RemoveDotSegmentsFrom(a + b, output) == RemoveDotSegmentsFrom(b, output + a)
    decreases |a|
  {
    var k := SegmentEnd(a + b);
    MoveFirstSegment(a, b, output);
    FirstSegmentOfAppend(a, b);
    if k < |a| {
      DotFreeSuffix(a, k);
      RemoveDotSegmentsFromAppend(a[k..], b, output + a[..k]);
      assert output + a[..k] + a[k..] == output + a;
    } else {
      assert a[..k] == a;
      assert a[k..] + b == b;
    }
  }

  /** Rule C of the loop on a whole `/..`: the last output segment goes, and a `/` follows. */
  lemma DotDotStep(output: string)
    ensures RemoveDotSegmentsFrom("/..", output) == DropLastSegment(output) + "/"
  {
    assert RemoveDotSegmentsFrom("/..", output) == RemoveDotSegmentsFrom("/", DropLastSegment(output));
    RuleE("/", DropLastSegment(output));
    assert SegmentEnd("/") == 1;
  }

  /** Below a directory path, dropping the last segment of `p + s` leaves the directory without its final `/`. */
  lemma DropPlainSegment(p: string, s: string)
    requires EndsWith(p, '/')
    requires forall i :: 0 <= i < |s| ==> s[i] != '/'
    ensures DropLastSegment(p + s) == p[..|p| - 1]
  {
    var a := p + s;
    var q := DropLastSegment(a);
    assert a[|p| - 1] == '/';
    assert forall i :: |p| <= i < |a| ==> a[i] == s[i - |p|];
    assert |q| == |p| - 1;
  }

  /**
   * A segment followed by `..` cancels: below a directory path free of dot
   * segments, `s/..` leads back to that directory.
   */
  lemma DotDotCancels(p: string, s: string)
    requires IsAbsolutePath(p) && DotFree(p) && EndsWith(p, '/')
    requires IsPlainSegment(s)
    ensures RemoveDotSegments(p + s + "/..") == p
  {
    AppendPlainSegment(p, s);
    var a := p + s;
    calc {
      RemoveDotSegments(a + "/..");
      RemoveDotSegmentsFrom(a + "/..", []);
      { RemoveDotSegmentsFromAppend(a, "/..", []); assert [] + a == a; }
      RemoveDotSegmentsFrom("/..", a);
      { DotDotStep(a); }
      DropLastSegment(a) + "/";
      { forall i | 0 <= i < |s|
          ensures s[i] != '/'
        {
          assert IsPlainChar(s[i]);
        }
        DropPlainSegment(p, s); }
      p[..|p| - 1] + "/";
      p;
    }
  }

  /** Removing the last segment keeps the output absolute and free of dot segments. */
  lemma DropLastSegmentDotFree(output: string)
    requires IsAbsolutePath(output) && DotFree(output)
    ensures IsAbsolutePath(DropLastSegment(output)) && DotFree(DropLastSegment(output))
  {
    var r := DropLastSegment(output);
    DotFreePrefix(output, |r|);
  }

  /** The loop leaves an absolute output free of dot segments. */
  lemma {:induction false} RemoveDotSegmentsFromResult(input: string, output: string)
    requires IsAbsolutePath(input)
    requires IsAbsolutePath(output) && DotFree(output)
    ensures IsAbsolutePath(RemoveDotSegmentsFrom(input, output))
    ensures DotFree(RemoveDotSegmentsFrom(input, output))
    decreases |input|
  {
    if input == [] {
    } else if At(input, 1, '.') && At(input, 2, '/') {
      RemoveDotSegmentsFromResult(input[2..], output);
    } else if |input| == 2 && At(input, 1, '.') {
      RemoveDotSegmentsFromResult("/", output);
    } else if At(input, 1, '.') && At(input, 2, '.') && At(input, 3, '/') {
      DropLastSegmentDotFree(output);
      RemoveDotSegmentsFromResult(input[3..], DropLastSegment(output));
    } else if |input| == 3 && At(input, 1, '.') && At(input, 2, '.') {
      DropLastSegmentDotFree(output);
      RemoveDotSegmentsFromResult("/", DropLastSegment(output));
    } else {
      var k := SegmentEnd(input);
      var piece := input[..k];
      assert piece[1..] == input[1..k];
      assert !IsDotSegment(piece[1..]);
      DotFreeAppend(output, piece);
      RemoveDotSegmentsFromResult(input[k..], output + piece);
    }
  }

  /** Removing dot segments from an absolute path a second time changes nothing. */
  lemma RemoveDotSegmentsIdempotent(path: string)
    requires IsAbsolutePath(path)
    ensures RemoveDotSegments(RemoveDotSegments(path)) == RemoveDotSegments(path)
  {
    RemoveDotSegmentsFromDotFree(RemoveDotSegments(path), []);
  }

  /**
   * Section 5.2.2 of RFC 3986 for a reference without scheme or authority:
   * the target keeps the base's scheme and authority and takes the
   * reference's fragment; an empty reference path keeps the base's path and,
   * unless the reference has one, its query.
   */
  function Resolve(base: Url, ref: string): (t: Url)
    requires IsAbsolutePath(base.path) && IsRelativeRef(ref)
    ensures t.scheme == base.scheme && t.authority == base.authority
    ensures t.fragment == SplitReference(ref).fragment
    ensures SplitReference(ref).path == [] ==>
      t.path == base.path
      && t.query == (if SplitReference(ref).query.Some? then SplitReference(ref).query else base.query)
    ensures SplitReference(ref).path != [] ==>
      t.query == SplitReference(ref).query && IsAbsolutePath(t.path) && DotFree(t.path)
  {
    var r := SplitReference(ref);
    if r.path == [] then
      Url(base.scheme, base.authority, base.path,
          if r.query.Some? then r.query else base.query, r.fragment)
    else if r.path[0] == '/' then
      Url(base.scheme, base.authority, RemoveDotSegments(r.path), r.query, r.fragment)
    else
      var merged := Merge(base.path, r.path);
      Url(base.scheme, base.authority, RemoveDotSegments(merged), r.query, r.fragment)
  }

  /** A reference without `?` and `#` is all path. */
  lemma SplitPathOnly(s: string)
    requires forall i :: 0 <= i < |s| ==> s[i] != '?' && s[i] != '#'
    ensures SplitReference(s) == Reference(s, None, None)
  {
    assert s[..IndexOf(s, '#')] == s;
  }

  /** A plain segment followed by `/` is a reference with nothing but a path. */
  lemma PlainDirectory(s: string)
    requires IsPlainSegment(s) && s != []
    ensures IsRelativeRef(s + "/")
    ensures SplitReference(s + "/") == Reference(s + "/", None, None)
  {
    var d := s + "/";
    assert d[0] == s[0];
    assert forall i :: 0 <= i < |d| ==> d[i] == '/' || IsPlainChar(d[i]);
    SplitPathOnly(d);
  }

  /** A plain segment is a reference with nothing but a path. */
  lemma SplitPlainSegment(s: string)
    requires IsPlainSegment(s)
    ensures IsRelativeRef(s)
    ensures SplitReference(s) == Reference(s, None, None)
  {
    SplitPathOnly(s);
  }

  /** Appending a plain segment to a directory path keeps it free of dot segments. */
  lemma AppendPlainSegment(path: string, s: string)
    requires IsAbsolutePath(path) && DotFree(path) && EndsWith(path, '/')
    requires IsPlainSegment(s)
    ensures IsAbsolutePath(path + s) && DotFree(path + s)
  {
    var m := |path| - 1;
    var piece := "/" + s;
    assert piece[1..] == s;
    DotFreePrefix(path, m);
    DotFreeAppend(path[..m], piece);
    assert path[..m] + piece == path + s;
  }

  /**
   * Against a base whose path is free of dot segments and ends in `/`, a
   * plain segment is appended to the path, and the base's query and fragment
   * are dropped.
   */
  lemma ResolvePlainSegment(base: Url, s: string)
    requires IsAbsolutePath(base.path) && DotFree(base.path) && EndsWith(base.path, '/')
    requires IsPlainSegment(s) && s != []
    ensures IsRelativeRef(s)
    ensures Resolve(base, s) == Url(base.scheme, base.authority, base.path + s, None, None)
  {
    SplitPlainSegment(s);
    assert Merge(base.path, s) == base.path + s;
    AppendPlainSegment(base.path, s);
    RemoveDotSegmentsFromDotFree(base.path + s, []);
  }

  /**
   * Against a base path `p + s + "/"`, the reference `..` leads to `p`: the
   * segment `s` is cancelled and the base's query and fragment are dropped.
   */
  lemma ResolveParent(base: Url, p: string, s: string, ref: string)
    requires IsAbsolutePath(p) && DotFree(p) && EndsWith(p, '/')
    requires IsPlainSegment(s) && base.path == p + s + "/"
    requires |ref| == 2 && ref[0] == '.' && ref[1] == '.'
    ensures IsRelativeRef(ref)
    ensures Resolve(base, ref) == Url(base.scheme, base.authority, p, None, None)
  {
    assert IsPlainChar(ref[0]) && IsPlainChar(ref[1]);
    assert ref[..2] != "//" by { assert ref[..2][0] == '.'; }
    SplitPathOnly(ref);
    calc {
      Merge(base.path, ref);
      { assert EndsWith(base.path, '/'); }
      base.path + ref;
      { assert p + s + "/" + ref == p + s + "/.."; }
      p + s + "/..";
    }
    DotDotCancels(p, s);
  }
}

=== FILE: usize.dfy ===
/**
 * Rust's `usize::from_str` on a 64-bit target: an optional `+`, then one or
 * more ASCII digits, with a value that fits in 64 bits. Nothing else is
 * accepted: no whitespace, no `-`, no other characters.
 */
module Usize {
  import opened Wrappers

  /** `usize::MAX` on a 64-bit target. */
  const USIZE_MAX: nat := 0xFFFF_FFFF_FFFF_FFFF

  predicate IsDigit(c: char) {
    '0' <= c <= '9'
  }

  predicate AllDigits(s: string) {
    forall i :: 0 <= i < |s| ==> IsDigit(s[i])
  }

  function DigitValue(c: char): (d: nat)
    requires IsDigit(c)
    ensures d < 10
  {
    (c as int) - ('0' as int)
  }

  function DigitChar(d: nat): (c: char)
    requires d < 10
    ensures IsDigit(c) && DigitValue(c) == d
  {
    ('0' as int + d) as char
  }

  /** The value of a string of decimal digits, most significant first. */
  function DecimalValue(ds: string): nat
    requires AllDigits(ds)
  {
    if ds == [] then 0
    else DecimalValue(ds[..|ds| - 1]) * 10 + DigitValue(ds[|ds| - 1])
  }

  /** A decimal numeral without superfluous leading zeros. */
  predicate IsCanonical(ds: string) {
    && ds != []
    && AllDigits(ds)
    && (ds[0] == '0' ==> |ds| == 1)
  }

  /** The decimal numeral of `n`, as Rust's `Display` for integers writes it. */
  function FormatUsize(n: nat): (ds: string)
    ensures IsCanonical(ds)
    ensures DecimalValue(ds) == n
  {
    if n < 10 then [DigitChar(n)]
    else
      var init := FormatUsize(n / 10);
      var ds := init + [DigitChar(n % 10)];
      assert ds[..|ds| - 1] == init;
      ds
  }

  /** `usize::from_str`. */
  function ParseUsize(s: string): (r: Option<nat>)
    ensures r.Some? ==> r.value <= USIZE_MAX
    ensures r.Some? ==> s != [] && (s[0] == '+' || IsDigit(s[0]))
    ensures r.Some? ==> forall i :: 0 < i < |s| ==> IsDigit(s[i])
    ensures r.Some? ==> r.value == DecimalValue(if s[0] == '+' then s[1..] else s)
  {
    var digits := if s != [] && s[0] == '+' then s[1..] else s;
    if digits == [] || !AllDigits(digits) then None
    else
      var v := DecimalValue(digits);
      if v <= USIZE_MAX then Some(v) else None
  }

  /** Every value up to `usize::MAX` survives formatting and parsing. */
  lemma ParseFormat(n: nat)
    requires n <= USIZE_MAX
    ensures ParseUsize(FormatUsize(n)) == Some(n)
  {
    var ds := FormatUsize(n);
    assert ds[0] != '+';
  }

  /** A value above `usize::MAX` is rejected: the parse reports overflow. */
  lemma ParseOverflow(n: nat)
    requires n > USIZE_MAX
    ensures ParseUsize(FormatUsize(n)) == None
  {
    var ds := FormatUsize(n);
    assert ds[0] != '+';
  }

  /** A canonical numeral has a value of at least one unless it is "0". */
  lemma {:induction false} CanonicalPositive(ds: string)
    requires IsCanonical(ds) && ds[0] != '0'
    ensures DecimalValue(ds) >= 1
    decreases |ds|
  {
    if |ds| > 1 {
      var init := ds[..|ds| - 1];
      assert init[0] == ds[0];
      CanonicalPositive(init);
    } else {
      assert DigitValue(ds[0]) >= 1;
    }
  }

  /** Formatting is onto the canonical numerals: no two of them denote one value. */
  lemma {:induction false} FormatDecimalValue(ds: string)
    requires IsCanonical(ds)
    ensures FormatUsize(DecimalValue(ds)) == ds
    decreases |ds|
  {
    var v := DecimalValue(ds);
    if |ds| == 1 {
      assert ds[..0] == [];
      assert DecimalValue(ds[..0]) == 0;
      assert v == DigitValue(ds[0]);
      assert DigitChar(v) == ds[0];
    } else {
      var init := ds[..|ds| - 1];
      assert init[0] == ds[0];
      assert ds[0] != '0';
      CanonicalPositive(init);
      FormatDecimalValue(init);
      var last := DigitValue(ds[|ds| - 1]);
      assert v == DecimalValue(init) * 10 + last;
      assert v / 10 == DecimalValue(init) && v % 10 == last;
      assert DigitChar(last) == ds[|ds| - 1];
      assert ds == init + [ds[|ds| - 1]];
    }
  }

  /** Any accepted canonical numeral is exactly the formatting of its value. */
  lemma ParsedCanonicalIsFormatted(s: string)
    requires IsCanonical(s)
    requires ParseUsize(s).Some?
    ensures FormatUsize(ParseUsize(s).value) == s
  {
    FormatDecimalValue(s);
  }

  /** A leading `+` is accepted and changes nothing. */
  lemma ParsePlus(ds: string)
    requires IsCanonical(ds)
    ensures ParseUsize("+" + ds) == ParseUsize(ds)
  {
    assert ("+" + ds)[1..] == ds;
  }

  /** Rust rejects the empty string and a `+` without digits. */
  lemma ParseRejectsEmpty()
    ensures ParseUsize("") == None
    ensures ParseUsize("+") == None
  {
    assert "+"[1..] == [];
  }

  /** Rust rejects a minus sign and whitespace around the digits. */
  lemma ParseRejects(ds: string)
    requires IsCanonical(ds)
    ensures ParseUsize("-" + ds) == None
    ensures ParseUsize(" " + ds) == None
    ensures ParseUsize(ds + " ") == None
  {
    assert !IsDigit(("-" + ds)[0]);
    assert !IsDigit((" " + ds)[0]);
    assert !IsDigit((ds + " ")[|ds|]);
  }

  /** A run of `0` characters. */
  predicate AllZeros(z: string) {
    forall i :: 0 <= i < |z| ==> z[i] == '0'
  }

  /** A run of zeros is worth nothing. */
  lemma {:induction false} ZerosValue(z: string)
    requires AllZeros(z)
    ensures AllDigits(z) && DecimalValue(z) == 0
    decreases |z|
  {
    if z != [] {
      ZerosValue(z[..|z| - 1]);
    }
  }

  /** Leading zeros do not change the value of a numeral. */
  lemma {:induction false} LeadingZerosValue(z: string, ds: string)
    requires AllZeros(z) && AllDigits(ds)
    ensures AllDigits(z + ds)
    ensures DecimalValue(z + ds) == DecimalValue(ds)
    decreases |ds|
  {
    ZerosValue(z);
    if ds == [] {
      assert z + ds == z;
    } else {
      var zd := z + ds;
      assert zd[..|zd| - 1] == z + ds[..|ds| - 1];
      assert zd[|zd| - 1] == ds[|ds| - 1];
      LeadingZerosValue(z, ds[..|ds| - 1]);
    }
  }

  /** A non-empty string of digits within range parses to its value, with or without a `+`. */
  lemma ParseDigits(s: string)
    requires s != [] && AllDigits(s) && DecimalValue(s) <= USIZE_MAX
    ensures ParseUsize(s) == Some(DecimalValue(s))
    ensures ParseUsize("+" + s) == Some(DecimalValue(s))
  {
    assert s[0] != '+';
    assert ("+" + s)[1..] == s;
  }

  /**
   * Numerals with leading zeros are accepted, signed or not, and read as the
   * value without them: `0012` and `+007` are 12 and 7.
   */
  lemma ParseLeadingZeros(z: string, n: nat)
    requires AllZeros(z) && n <= USIZE_MAX
    ensures ParseUsize(z + FormatUsize(n)) == Some(n)
    ensures ParseUsize("+" + z + FormatUsize(n)) == Some(n)
  {
    var ds := FormatUsize(n);
    var s := z + ds;
    assert s != [] && AllDigits(s) && DecimalValue(s) == n by {
      LeadingZerosValue(z, ds);
    }
    ParseDigits(s);
    assert "+" + z + ds == "+" + s;
  }
}

=== FILE: wrappers.dfy ===
/** Option and Result for the error paths of the model. */
module Wrappers {

  /** An optional value: `None` where the source gets nothing back. */
  datatype Option<+T> = None | Some(value: T)

  /** The outcome of an operation that can fail with a described error. */
  datatype Result<+T, +E> = Success(value: T) | Failure(error: E) {

    /** Forgets the error, as Rust's `Result::ok` does. */
    function ToOption(): (o: Option<T>)
      ensures o.Some? <==> this.Success?
      ensures o.Some? ==> o.value == this.value
    {
      match this
      case Success(v) => Some(v)
      case Failure(_) => None
    }
  }
}
